=== FILE: README.md ===
# Ten-year financial projection, modelled in Dafny

The original program is a single-page planning tool (`app.py`). It takes market, revenue, staffing and cost inputs and projects ten years of:

- customers (Bass diffusion with churn);
- net revenue;
- headcount (a no-layoff ratchet on the FTE that revenue requires, split across six roles by the start roster's fixed shares);
- personnel cost (hourly rates by salary layer, a wage factor compounded by salary increase and inflation, payroll tax);
- the other operating expenses by driver;
- cost of goods sold;
- EBITDA and the EBITDA margin.

This project models that computation: the constants and initialisation before the yearly loop, and the loop itself.

Modules, one per component of the computation:

- `Results`: the `Result` type and the division-by-zero error.
- `Numbers`: `Max`, the power function and small facts of real arithmetic.
- `Scenario`: the inputs as one `Params` record, with the ranges the input widgets allow (`Valid`). Also the six roles and their salary layers, the start roster, the inputs' initial values, and the quantities derived once before the loop: SOM, Bass rates, year-1 revenue, target revenue per FTE, yearly wage growth.
- `Market`: one Bass step, both as the script writes it and with the empty-market guard; customers per year; net revenue.
- `Headcount`: required FTE, the ratchet, role shares and the split of the total.
- `Payroll`: hourly rate by layer, cost per head, personnel cost.
- `Costs`: the other operating expenses by driver, cost of goods sold, the margin.
- `Projection`: the plan.
  - Customers, total FTE and wage factor are three recurrences over the years (`CustomersAt`, `EmployeesAt`, `WageFactorAt`).
  - A `Row` holds a year's drivers. Its other columns are member functions of the row and the inputs.
  - `Simulate` is the ten rows.
  - `SimulateLoop` is the script's loop, which carries the three quantities in variables and appends a row per year; its result equals `Simulate`.
  - `SimulateAsWritten` is the plan as the script computes it, including its failure.
- `ProjectionFacts`: properties relating the years of the plan to each other, and the first year of the default inputs worked out.

Amounts are exact reals. The script's integer inputs (SAM, ARPU, hourly rates, per-unit costs) stay integers in `Params` and are converted where the script mixes them with floats.

## Model

| member | source | states |
|---|---|---|
| Scenario.Layer | app.py:46-53 | Every role has salary layer 1, 2 or 3. Layer 1 is exactly the managing director, layer 2 exactly the executives, and everyone else is layer 3. |
| Scenario.Som | app.py:11-13 | Within the input ranges, the obtainable market is not negative, and it is empty exactly when the target share is 0%. |
| Scenario.DiscountFactor | app.py:23 | Within the input ranges, rebates keep between 80% and 100% of gross revenue. |
| Scenario.TargetRevenuePerFte | app.py:73-75 | With a non-empty start roster, the target revenue per FTE times the start total is the year-1 revenue. With an empty roster it is zero instead of a division. |
| Scenario.WageGrowth | app.py:26-27 | Within the input ranges, the yearly wage growth (salary increase compounded with inflation) is at least one. |
| Market.BassNext | app.py:91-95 | For inputs in range, one Bass step gives a count that is not negative. At or above the market, the next count is exactly the customers left after churn, and it never exceeds the previous count. Below the market it is at least the retained customers. An empty market contributes no imitation term. |
| Market.BassNextAsWritten | app.py:94 | The step as written fails with a division by zero in the year computed exactly when the market is empty. Otherwise it equals `BassNext`. |
| Market.CustomersCanExceedMarket | app.py:91-95 | Nothing caps customers at the market: with no churn and a market 95% reached, one step overshoots it. |
| Market.Customers | app.py:88-89 | Year 1 has the fixed ten customers whatever the market inputs. |
| Market.NetRevenue | app.py:100-101 | Net revenue is proportional to the customer count. It is exactly the year-1 revenue at ten customers, and not negative for a non-negative count, a non-negative ARPU and a discount in range. |
| Headcount.RequiredFte | app.py:105-108 | The required FTE times the target revenue per FTE is the year's net revenue when that target is positive, and zero otherwise. When the year-1 revenue is positive and the start roster is not empty, at the year-1 revenue it is the start roster's total. |
| Headcount.TotalFte | app.py:111 | The year's total is at least last year's total and at least the required FTE, and it is one of the two. |
| Headcount.Share | app.py:117 | A role's share is zero for an empty start roster and lies between zero and one within the input ranges. |
| Headcount.SharesSumToOne | app.py:116-117 | The six shares of a non-empty start roster add up to one. |
| Headcount.Split | app.py:115-119 | Every role gets the total times its share. The roles add up to the total (to zero for an empty roster), and none is negative for a non-negative total. |
| Headcount.SplitMonotone | app.py:116-118 | A larger total gives every role at least as many FTE. |
| Headcount.SplitAtStartTotal | app.py:115-119 | A non-empty start roster split at its own total gives back each role's start FTE exactly. |
| Headcount.IdleRoleStaysIdle | app.py:116-118 | A role with no start FTE gets none, whatever the total. |
| Payroll.PayrollTaxFactor | app.py:28 | Within the input ranges, payroll tax adds between 0% and 50%. |
| Payroll.CostPerHead | app.py:138 | The yearly cost of one FTE is not negative for rates and a wage factor that are not negative. |
| Payroll.PersonnelCost | app.py:130-141 | Personnel cost is not negative for staff, rates and wage factor that are not negative. |
| Payroll.PersonnelCostScales | app.py:138-141 | The wage factor scales the whole payroll: the cost at factor `w` is `w` times the cost at the year-1 rates. |
| Payroll.PersonnelCostMonotone | app.py:130-141 | With no negative hourly rate, more staff in every role and a higher wage factor never lower the personnel cost. |
| Costs.CarsOnlyForExecutivesAndField | app.py:158-159 | Cars are paid for executives and field service only. Two role splits that agree on those two roles give the same opex in every line, whatever the other roles hold. |
| Costs.OpexMonotone | app.py:148-162 | With no driver priced negatively, more customers, revenue and total FTE, and at least as many executive and field-service FTE, never give lower other opex in the same year. |
| Costs.Cogs | app.py:165 | Cost of goods sold is the COGS percentage of net revenue. Within the input ranges it is between zero and 80% of a non-negative revenue. |
| Costs.Margin | app.py:177 | With positive revenue, the margin times revenue is 100 times EBITDA, and the margin is not negative exactly when EBITDA is not. Without positive revenue the margin is zero. |
| Projection.EmployeesAt | app.py:111 | Each year's total FTE is at least the year before's. |
| Projection.Rows | app.py:84-85 | The first `k` years give `k` rows, numbered 1 to `k` in order. |
| Projection.Simulate | app.py:84-85 | The plan has ten rows, years 1 to 10 in order. |
| Projection.StepAgrees | app.py:88-128 | The three recurrences advance exactly as one pass of the loop body: Bass step, ratchet, wage growth. |
| Projection.SimulateLoop | app.py:77-182 | The loop that carries customers, total FTE and wage factor in variables computes exactly the plan's rows. |
| Projection.RowsAsWrittenAgree | app.py:84-95 | Computed as written, the first `k` years agree with the guarded plan when the market is not empty or `k < 2`. With an empty market they fail in year 2. |
| Projection.SimulateAsWritten | app.py:91-95 | The script's plan fails with a division by zero in year 2 exactly when the obtainable market is empty. Otherwise it is the guarded plan. |
| ProjectionFacts.EmptyMarketFails | app.py:12-13 | The default inputs with a 0% target share are valid inputs on which the script fails with a division by zero in year 2, where the guarded plan keeps the 9 customers that 10% churn leaves of the first 10. |
| ProjectionFacts.WageFactorAtClosedForm | app.py:127-128 | The wage factor of year `k` is the yearly growth raised to the power `k - 1`. |
| ProjectionFacts.CustomersAtNonNegative | app.py:91-95 | Within the input ranges no year has a negative customer count. |
| ProjectionFacts.KeepsStartStaff | app.py:79-111 | The total FTE never falls below the start roster's total. |
| ProjectionFacts.EmptyRosterStaysEmpty | app.py:105-111 | With an empty start roster, the total FTE is zero in every year. |
| ProjectionFacts.FirstYearStaff | app.py:73-111 | Within the input ranges, year 1 has ten customers and exactly the start roster's total FTE. |
| ProjectionFacts.PlanRow | app.py:180-182 | The plan's row of year `t` holds the customers, total FTE and wage factor of year `t`. |
| ProjectionFacts.FirstYear | app.py:88-111 | Year 1 of the plan: ten customers bringing the year-1 revenue, the start total FTE, a wage factor of one and the website lump sum. |
| ProjectionFacts.FirstYearRoster | app.py:73-119 | Within the input ranges and with a non-empty start roster, year 1's FTE by role is exactly the start roster, whatever the other inputs. |
| ProjectionFacts.CustomerRecurrence | app.py:90-95 | From year 2 on, a year's customers are one Bass step from the previous row's customers. |
| ProjectionFacts.CustomersNonNegative | app.py:91-95 | Within the input ranges no row has a negative customer count. |
| ProjectionFacts.NoGrowthAboveMarket | app.py:91-95 | Once a year's customers reach the obtainable market, the next year has no more. |
| ProjectionFacts.HeadcountRatchet | app.py:105-112 | Each year's total FTE is at least the previous row's and covers what its revenue requires. It is one of the two. |
| ProjectionFacts.RoleRatchet | app.py:111-118 | Within the input ranges no role loses FTE from one year to the next. |
| ProjectionFacts.RolesAddUp | app.py:115-119 | A row's role FTEs add up to its total FTE (to zero for an empty start roster). |
| ProjectionFacts.IdleRoleInEveryYear | app.py:115-119 | A role the start roster leaves empty has no FTE in any year. |
| ProjectionFacts.NoManagingDirector | app.py:36-43 | With the script's start roster there is never a managing director in any year, whatever the other inputs. |
| ProjectionFacts.EmptyRosterFallback | app.py:73-75 | With an empty start roster every year has zero FTE and zero personnel cost. |
| ProjectionFacts.NoStaffNoPayroll | app.py:130-141 | A split of zero FTE costs nothing at any wage factor. |
| ProjectionFacts.WageFactorClosedForm | app.py:82-128 | The plan's wage factor in year `t` is the yearly growth to the power `t - 1`. |
| ProjectionFacts.PersonnelAtCompoundedRates | app.py:127-141 | A year's personnel cost is its staff paid at the year-1 rates compounded `t - 1` times. |
| ProjectionFacts.PersonnelNeverFalls | app.py:111-141 | Within the input ranges, and with no negative hourly rate, personnel cost never falls from one year to the next. |
| ProjectionFacts.WageFactorGrows | app.py:127-128 | Within the input ranges the wage factor is at least one and never falls from one year to the next. |
| ProjectionFacts.MiscByYear | app.py:162 | In the plan, the lump sum is 13000 in year 1 and 3000 in every later year. |
| ProjectionFacts.DefaultFirstYearStaff | app.py:73-118 | With the default inputs, year 1 has 10 customers, 30000 of net revenue, 2 FTE split exactly as the start roster, and a wage factor of one. |
| ProjectionFacts.DefaultFirstYearPersonnel | app.py:130-141 | With the default inputs, year-1 personnel cost is 216000. |
| ProjectionFacts.DefaultFirstYearOpex | app.py:148-167 | With the default inputs, year-1 other opex is 73010. |
| ProjectionFacts.DefaultFirstYearGoods | app.py:165 | With the default inputs, year-1 cost of goods sold is 3000. |
| ProjectionFacts.DefaultFirstYearResult | app.py:168-175 | With the default inputs, year-1 EBITDA is -262010. |
| ProjectionFacts.DefaultFirstYearMargin | app.py:177 | With the default inputs, the year-1 EBITDA margin is -26201000 / 30000 percent (about -873%): EBITDA after payroll, other opex and cost of goods sold, relative to net revenue. |
| ProjectionFacts.DefaultSecondYear | app.py:91-128 | With the default inputs, year 2 has 9 + (0.025 + 0.38 · 10/897) · 887 customers (about 34.9), and a wage factor of 1.015 · 1.02 = 1.0353. |
| ProjectionFacts.DiscountedFirstYear | app.py:155-165 | With the default inputs and a 10% rebate, year-1 consulting is 5% and cost of goods sold 10% of the net revenue of 27000: 1350 and 2700. |

## Left out

- The user interface: the sidebar widgets (app.py:1-60) and the KPI cards, charts, table and CSV export (app.py:184-207). Inputs are a `Params` value instead. The widget ranges are the predicate `Scenario.Valid`. The display is not modelled.
- Slider step granularity (0.1, 0.5, 1.0 and so on): any real in a widget's range is admitted.
- Floating-point rounding: all amounts are exact reals. Every equality in the contracts holds of the exact computation. The program's floats may differ in the last bits.
- `int(SOM)` in the sidebar caption (app.py:14) is display only.
- The start roster is a fixed dictionary in the script (app.py:36-43). It is an input field `startFte` here, so that the empty-roster fallback of app.py:75 and app.py:117 can be stated. `DefaultParams` carries the script's roster.
- The DataFrame's column names and the row dictionary: a `Row` stores the year, customers, total FTE and wage factor. Net revenue, FTE by role, personnel cost, other opex, cost of goods sold, total costs, EBITDA and margin are member functions of the row. They are computed from the drivers exactly as the loop computes them.
- Market.Customers: its contract states only the year-1 case. Later years are stated through `Market.BassNext` and `ProjectionFacts.CustomerRecurrence`.
- ProjectionFacts.PersonnelNeverFalls: requires hourly rates that are not negative. The number inputs for the rates have no lower bound.
- Costs.OpexMonotone: requires per-unit costs that are not negative, for the same reason.
- Worked numbers for the default inputs cover all of year 1 and the customers and wage factor of year 2. Later years and the other year-2 columns are covered by the general lemmas instead.

## Findings

| source | as written | input that shows it | evidently intended | confidence | as-written member | corrected member |
|---|---|---|---|---|---|---|
| app.py:94 | The Bass step divides `n_prev` by `SOM` in every year from year 2 on, with no guard. | Target share slider at 0.0 (its lowest setting), which makes `SOM = 0`. Year 2 raises a division by zero, and the page shows no plan. | An empty market has no imitation term, so the step retains the customers left after churn; the term is multiplied by a potential of 0 anyway. | not executed | Projection.SimulateAsWritten | Market.BassNext |

`ProjectionFacts.EmptyMarketFails` exhibits the failing input on the as-written path. `Market.BassNextAsWritten` is the failing step. The rest of the model uses the guarded `Market.BassNext`.

=== FILE: costs.dfy ===
/** The cost drivers besides payroll, cost of goods sold, and the margin of
    the year's result. */
module Costs {
  import opened Numbers
  import opened Scenario

  /** The other operating expenses of a year, by driver. */
  datatype Opex = Opex(
    marketing: real,    // per customer
    office: real,       // rent, per FTE
    tech: real,         // IT and licences, per FTE
    consulting: real,   // legal and tax advice, share of net revenue
    cars: real,         // per executive and field service FTE
    misc: real)         // website and other lump sums
  {
    function Total(): real {
      marketing + office + tech + consulting + cars + misc
    }
  }

  /** The miscellaneous lump sum: the website build in year 1, its
      maintenance afterwards. */
  function MiscCost(t: nat): real {
    if t > 1 then 3000.0 else 13000.0
  }

  /** The other operating expenses of year `t`, with `n` customers, net
      revenue `netRev`, `fteTotal` FTE in all split as `s`. Cars are paid
      for executives and field service only, whatever the other roles
      hold. */
  function OpexFor(p: Params, t: nat, n: real, netRev: real, fteTotal: real, s: Staff): Opex {
    var relevantCarFte := s.exec + s.field;
    Opex(
      n * p.marketingPerCustomer as real,
      fteTotal * p.officePerFte as real,
      fteTotal * p.techPerFte as real,
      netRev * (p.consultingPercent / 100.0),
      relevantCarFte * p.carCostPerFte as real,
      MiscCost(t))
  }

  /** Cars are paid for executives and field service only: two splits that
      agree on those two roles cost the same in cars, whatever the other
      roles hold, and nothing else of the year's opex depends on the split. */
  lemma CarsOnlyForExecutivesAndField(p: Params, t: nat, n: real, netRev: real, fteTotal: real, a: Staff, b: Staff)
    requires a.Of(Executives) == b.Of(Executives) && a.Of(FieldService) == b.Of(FieldService)
    ensures OpexFor(p, t, n, netRev, fteTotal, a) == OpexFor(p, t, n, netRev, fteTotal, b)
  {
    assert a.exec == b.exec && a.field == b.field;
  }

  /** No driver of the other opex is priced negatively. */
  predicate DriverRatesNonNegative(p: Params) {
    && p.marketingPerCustomer >= 0 && p.officePerFte >= 0 && p.techPerFte >= 0
    && p.carCostPerFte >= 0 && p.consultingPercent >= 0.0
  }

  /** Other opex grows with its drivers: more customers, revenue and FTE, and
      at least as many executive and field-service FTE, never cost less in
      the same year. */
  lemma OpexMonotone(p: Params, t: nat, n: real, n': real, netRev: real, netRev': real,
                     fteTotal: real, fteTotal': real, s: Staff, s': Staff)
    requires DriverRatesNonNegative(p)
    requires n <= n' && netRev <= netRev' && fteTotal <= fteTotal'
    requires s.exec + s.field <= s'.exec + s'.field
    ensures OpexFor(p, t, n, netRev, fteTotal, s).Total() <= OpexFor(p, t, n', netRev', fteTotal', s').Total()
  {
    var a := OpexFor(p, t, n, netRev, fteTotal, s);
    var b := OpexFor(p, t, n', netRev', fteTotal', s');
    assert a.marketing <= b.marketing by {
      MulMonotone(n, n', p.marketingPerCustomer as real);
    }
    assert a.office <= b.office by {
      MulMonotone(fteTotal, fteTotal', p.officePerFte as real);
    }
    assert a.tech <= b.tech by {
      MulMonotone(fteTotal, fteTotal', p.techPerFte as real);
    }
    assert a.consulting <= b.consulting by {
      MulMonotone(netRev, netRev', p.consultingPercent / 100.0);
    }
    assert a.cars <= b.cars by {
      MulMonotone(s.exec + s.field, s'.exec + s'.field, p.carCostPerFte as real);
    }
  }

  /** Cost of goods sold: a fixed share of net revenue, at most 80%. */
  function Cogs(p: Params, netRev: real): (c: real)
    ensures Valid(p) && netRev >= 0.0 ==> 0.0 <= c <= 0.8 * netRev
    ensures c * 100.0 == netRev * p.cogsPercent
  {
    var c := netRev * (p.cogsPercent / 100.0);
    assert Valid(p) && netRev >= 0.0 ==> 0.0 <= c <= 0.8 * netRev by {
      if Valid(p) && netRev >= 0.0 {
        MulNonNegative(netRev, p.cogsPercent / 100.0);
        MulMonotone(p.cogsPercent / 100.0, 0.8, netRev);
      }
    }
    c
  }

  /** EBITDA margin in percent of net revenue; zero when there is no
      positive net revenue to relate it to. */
  function Margin(ebitda: real, netRev: real): (m: real)
    ensures netRev <= 0.0 ==> m == 0.0
    ensures netRev > 0.0 ==> m * netRev == ebitda * 100.0
    ensures netRev > 0.0 ==> (m >= 0.0 <==> ebitda >= 0.0)
  {
    if netRev > 0.0 then ebitda / netRev * 100.0 else 0.0
  }
}

=== FILE: headcount.dfy ===
/** Headcount planning: the FTE that the year's revenue requires at the
    year-1 revenue per FTE, the no-layoff ratchet on the total, and the split
    of the total across roles by the start roster's fixed shares. */
module Headcount {
  import opened Numbers
  import opened Scenario

  /** FTE needed to carry `netRev` at the target revenue per FTE; zero when
      there is no positive target (an empty start roster or a year-1 revenue
      that is not positive) instead of dividing by it. */
  function RequiredFte(p: Params, netRev: real): (r: real)
    ensures TargetRevenuePerFte(p) > 0.0 ==> r * TargetRevenuePerFte(p) == netRev
    ensures TargetRevenuePerFte(p) <= 0.0 ==> r == 0.0
    ensures p.startFte.Total() <= 0.0 ==> r == 0.0
    ensures RevenueYear1(p) > 0.0 && p.startFte.Total() > 0.0 && netRev == RevenueYear1(p) ==>
              r == p.startFte.Total()
  {
    var target := TargetRevenuePerFte(p);
    if target > 0.0 then netRev / target else 0.0
  }

  /** Total FTE of a year: what the revenue requires, but never fewer than
      the year before (no layoffs). */
  function TotalFte(p: Params, netRev: real, prevTotal: real): (r: real)
    ensures r >= prevTotal
    ensures r >= RequiredFte(p, netRev)
    ensures r == prevTotal || r == RequiredFte(p, netRev)
  {
    Max(RequiredFte(p, netRev), prevTotal)
  }

  /** A role's fixed share of the total, taken from the start roster; zero
      for every role when the start roster is empty. */
  function Share(p: Params, role: Role): (s: real)
    ensures p.startFte.Total() <= 0.0 ==> s == 0.0
    ensures Valid(p) ==> 0.0 <= s <= 1.0
  {
    var total := p.startFte.Total();
    if total > 0.0 then
      assert Valid(p) ==> 0.0 <= p.startFte.Of(role) / total <= 1.0 by {
        if Valid(p) {
          RoleWithinTotal(p.startFte, role);
          FractionAtMostOne(p.startFte.Of(role), total);
        }
      }
      p.startFte.Of(role) / total
    else 0.0
  }

  /** A share of a non-empty start roster, scaled back by the roster's
      total, gives the role's start FTE. */
  lemma ShareScalesBack(p: Params, role: Role)
    requires p.startFte.Total() > 0.0
    ensures Share(p, role) * p.startFte.Total() == p.startFte.Of(role)
  {
  }

  /** The shares of a non-empty start roster add up to one. */
  lemma SharesSumToOne(p: Params)
    requires p.startFte.Total() > 0.0
    ensures Share(p, ManagingDirector) + Share(p, Executives) + Share(p, FieldService)
          + Share(p, InternalSales) + Share(p, Marketing) + Share(p, Accounting) == 1.0
  {
    var t := p.startFte.Total();
    var f := p.startFte;
    assert f.Of(ManagingDirector) + f.Of(Executives) + f.Of(FieldService)
         + f.Of(InternalSales) + f.Of(Marketing) + f.Of(Accounting) == t;
    ShareScalesBack(p, ManagingDirector);
    ShareScalesBack(p, Executives);
    ShareScalesBack(p, FieldService);
    ShareScalesBack(p, InternalSales);
    ShareScalesBack(p, Marketing);
    ShareScalesBack(p, Accounting);
    SumOfSixParts(Share(p, ManagingDirector), Share(p, Executives), Share(p, FieldService),
                  Share(p, InternalSales), Share(p, Marketing), Share(p, Accounting),
                  f.Of(ManagingDirector), f.Of(Executives), f.Of(FieldService),
                  f.Of(InternalSales), f.Of(Marketing), f.Of(Accounting), t);
  }

  /** The total FTE split across the roles by their fixed shares. The role
      FTEs add up to the total (to zero for an empty start roster) and a
      non-negative total gives non-negative role FTEs. */
  function Split(p: Params, total: real): (s: Staff)
    ensures forall r: Role :: s.Of(r) == total * Share(p, r)
    ensures p.startFte.Total() > 0.0 ==> s.Total() == total
    ensures p.startFte.Total() <= 0.0 ==> s.Total() == 0.0
    ensures Valid(p) && total >= 0.0 ==> s.NonNegative()
  {
    var s := Staff(total * Share(p, ManagingDirector), total * Share(p, Executives),
                   total * Share(p, FieldService), total * Share(p, InternalSales),
                   total * Share(p, Marketing), total * Share(p, Accounting));
    SplitByShare(p, total, s);
    SplitAddsUp(p, total, s);
    SplitNonNegative(p, total, s);
    s
  }

  /** The staff built from the shares adds up to the total when the start
      roster is not empty. */
  lemma SplitAddsUp(p: Params, total: real, s: Staff)
    requires s == Staff(total * Share(p, ManagingDirector), total * Share(p, Executives),
                        total * Share(p, FieldService), total * Share(p, InternalSales),
                        total * Share(p, Marketing), total * Share(p, Accounting))
    ensures p.startFte.Total() > 0.0 ==> s.Total() == total
  {
    if p.startFte.Total() > 0.0 {
      SharesSumToOne(p);
      ScaleSixParts(Share(p, ManagingDirector), Share(p, Executives), Share(p, FieldService),
                    Share(p, InternalSales), Share(p, Marketing), Share(p, Accounting), total);
    }
  }

  /** Shares of a non-negative total are not negative. */
  lemma SplitNonNegative(p: Params, total: real, s: Staff)
    requires s == Staff(total * Share(p, ManagingDirector), total * Share(p, Executives),
                        total * Share(p, FieldService), total * Share(p, InternalSales),
                        total * Share(p, Marketing), total * Share(p, Accounting))
    ensures Valid(p) && total >= 0.0 ==> s.NonNegative()
  {
    if Valid(p) && total >= 0.0 {
      MulNonNegative(total, Share(p, ManagingDirector));
      MulNonNegative(total, Share(p, Executives));
      MulNonNegative(total, Share(p, FieldService));
      MulNonNegative(total, Share(p, InternalSales));
      MulNonNegative(total, Share(p, Marketing));
      MulNonNegative(total, Share(p, Accounting));
    }
  }

  /** Each role of the split holds its share of the total. */
  lemma SplitByShare(p: Params, total: real, s: Staff)
    requires s == Staff(total * Share(p, ManagingDirector), total * Share(p, Executives),
                        total * Share(p, FieldService), total * Share(p, InternalSales),
                        total * Share(p, Marketing), total * Share(p, Accounting))
    ensures forall r: Role :: s.Of(r) == total * Share(p, r)
  {
    forall r: Role ensures s.Of(r) == total * Share(p, r) {
      match r
      case ManagingDirector =>
      case Executives =>
      case FieldService =>
      case InternalSales =>
      case Marketing =>
      case Accounting =>
    }
  }

  /** A role the start roster leaves unstaffed stays unstaffed, whatever
      the total. */
  lemma IdleRoleStaysIdle(p: Params, total: real, r: Role)
    requires p.startFte.Of(r) == 0.0
    ensures Split(p, total).Of(r) == 0.0
  {
    IdleShare(p, r);
    SplitOf(p, total, r);
  }

  /** A role without start FTE has no share. */
  lemma IdleShare(p: Params, r: Role)
    requires p.startFte.Of(r) == 0.0
    ensures Share(p, r) == 0.0
  {
  }

  /** A larger total gives every role at least as many FTE. */
  lemma SplitMonotone(p: Params, a: real, b: real, r: Role)
    requires Valid(p)
    requires a <= b
    ensures Split(p, a).Of(r) <= Split(p, b).Of(r)
  {
    SplitOf(p, a, r);
    SplitOf(p, b, r);
    MulMonotone(a, b, Share(p, r));
  }

  /** One role of a split. */
  lemma SplitOf(p: Params, total: real, r: Role)
    ensures Split(p, total).Of(r) == total * Share(p, r)
  {
  }

  /** The start roster split at its own total is the roster itself: the
      shares scale the total back to each role's start FTE. */
  lemma SplitAtStartTotal(p: Params)
    requires p.startFte.Total() > 0.0
    ensures Split(p, p.startFte.Total()) == p.startFte
  {
    var t := p.startFte.Total();
    var s := Split(p, t);
    forall r: Role
      ensures s.Of(r) == p.startFte.Of(r)
    {
      SplitOf(p, t, r);
      ShareScalesBack(p, r);
    }
    assert s.md == s.Of(ManagingDirector);
    assert s.exec == s.Of(Executives);
    assert s.field == s.Of(FieldService);
    assert s.sales == s.Of(InternalSales);
    assert s.marketing == s.Of(Marketing);
    assert s.accounting == s.Of(Accounting);
  }
}

=== FILE: market.dfy ===
/** Customer growth and revenue: one step of Bass diffusion with churn, and
    the net revenue the customers bring. */
module Market {
  import opened Numbers
  import opened Results
  import opened Scenario

  /** Customers of a year after `nPrev` customers in the year before, in a
      market of `som` obtainable customers, with innovation rate `p`,
      imitation rate `q` and churn rate `churn`. The customers retained
      after churn are joined by the adopters among the not yet reached part
      of the market; that part is never negative, and nothing caps the
      result at `som`. The imitation term scales with the share of the market
      already reached; an empty market (`som == 0`) has no share to imitate,
      and the term is taken as zero there instead of dividing by zero. */
  function BassNext(nPrev: real, som: real, p: real, q: real, churn: real): (n: real)
    ensures 0.0 <= nPrev && 0.0 <= som && 0.0 <= p && 0.0 <= q && 0.0 <= churn <= 1.0 ==> n >= 0.0
    ensures nPrev >= som ==> n == nPrev * (1.0 - churn)
    ensures 0.0 <= nPrev && 0.0 <= som <= nPrev && 0.0 <= churn ==> n <= nPrev
    ensures 0.0 <= nPrev <= som && 0.0 <= p && 0.0 <= q ==> n >= nPrev * (1.0 - churn)
  {
    var retained := nPrev * (1.0 - churn);
    var potential := Max(0.0, som - nPrev);
    var share := if som == 0.0 then 0.0 else nPrev / som;
    var adoption := p + q * share;
    assert 0.0 <= nPrev && 0.0 <= som && 0.0 <= p && 0.0 <= q ==> adoption * potential >= 0.0 by {
      if 0.0 <= nPrev && 0.0 <= som && 0.0 <= p && 0.0 <= q {
        assert share >= 0.0;
        MulNonNegative(q, share);
        MulNonNegative(adoption, potential);
      }
    }
    assert 0.0 <= nPrev && 0.0 <= churn <= 1.0 ==> retained >= 0.0 by {
      if 0.0 <= nPrev && 0.0 <= churn <= 1.0 {
        MulNonNegative(nPrev, 1.0 - churn);
      }
    }
    assert 0.0 <= nPrev && 0.0 <= churn ==> retained <= nPrev by {
      if 0.0 <= nPrev && 0.0 <= churn {
        MulNonNegative(nPrev, churn);
      }
    }
    retained + adoption * potential
  }

  /** The Bass step exactly as the script computes it: `n_prev / SOM` is
      evaluated whatever SOM is, so an empty market raises a division by
      zero in the year being computed. Wherever it does not fail it agrees
      with `BassNext`. */
  function BassNextAsWritten(year: nat, nPrev: real, som: real, p: real, q: real, churn: real): (r: Result<real>)
    ensures r.Err? <==> som == 0.0
    ensures r.Err? ==> r.error == DivisionByZero(year)
    ensures r.Ok? ==> r.value == BassNext(nPrev, som, p, q, churn)
  {
    if som == 0.0 then Err(DivisionByZero(year))
    else
      var termRet := nPrev * (1.0 - churn);
      var potential := Max(0.0, som - nPrev);
      var adoption := p + q * (nPrev / som);
      Ok(termRet + adoption * potential)
  }

  /** Customers of year `t` after `nPrev` in the year before: the fixed
      start count in year 1, a Bass step afterwards. */
  function Customers(params: Params, t: nat, nPrev: real): (n: real)
    requires t >= 1
    ensures t == 1 ==> n == CustomersYear1
  {
    if t == 1 then CustomersYear1
    else BassNext(nPrev, Som(params), Innovation(params), Imitation(params), Churn(params))
  }

  /** Net revenue of `n` customers: ARPU per customer, less rebates. It is
      proportional to the customer count, so that the year-1 revenue is
      reached exactly at the year-1 customer count. */
  function NetRevenue(params: Params, n: real): (r: real)
    ensures r * CustomersYear1 == n * RevenueYear1(params)
    ensures n == CustomersYear1 ==> r == RevenueYear1(params)
    ensures Valid(params) && params.arpu >= 0 && n >= 0.0 ==> r >= 0.0
  {
    var grossRevenue := n * params.arpu as real;
    assert Valid(params) && params.arpu >= 0 && n >= 0.0 ==> grossRevenue * DiscountFactor(params) >= 0.0 by {
      if Valid(params) && params.arpu >= 0 && n >= 0.0 {
        MulNonNegative(n, params.arpu as real);
        MulNonNegative(grossRevenue, DiscountFactor(params));
      }
    }
    grossRevenue * DiscountFactor(params)
  }

  /** Nothing caps customers at the obtainable market: with the widest
      imitation rate, the highest innovation rate, no churn and a market 95%
      reached, one step overshoots the market. */
  lemma CustomersCanExceedMarket()
    ensures BassNext(950.0, 1000.0, 0.1, 1.0, 0.0) > 1000.0
  {
    var share := 950.0 / 1000.0;
    assert share == 0.95;
  }
}

=== FILE: numbers.dfy ===
/** Small numeric helpers shared by the sub-calculations of the projection:
    the maximum of two reals and natural powers of a real. */
module Numbers {

  /** The larger of two reals, as Python's `max` on two numbers. */
  function Max(a: real, b: real): (m: real)
    ensures m >= a && m >= b
    ensures m == a || m == b
  {
    if a >= b then a else b
  }

  /** The product of two non-negative reals is non-negative. */
  lemma MulNonNegative(a: real, b: real)
    requires a >= 0.0 && b >= 0.0
    ensures a * b >= 0.0
  {
  }

  /** Multiplying by a non-negative real keeps the order. */
  lemma MulMonotone(a: real, b: real, c: real)
    requires a <= b && c >= 0.0
    ensures a * c <= b * c
  {
  }

  /** Products of non-negative factors grow with each factor. */
  lemma ProductMonotone(a: real, b: real, c: real, d: real)
    requires 0.0 <= a <= b && 0.0 <= c <= d
    ensures a * c <= b * d
  {
    MulMonotone(a, b, c);
    assert b * c <= b * d;
  }

  /** Moving the middle factor of a triple product to the front. */
  lemma Regroup(b: real, v: real, t: real)
    ensures b * v * t == v * (b * t)
  {
  }

  /** Pulling a factor `w` out of a quantity times a triple product. */
  lemma ProductRegroup(x: real, b: real, w: real, t: real)
    ensures x * (b * w * t) == w * (x * (b * 1.0 * t))
  {
  }

  /** A common factor of six terms comes out of their sum. */
  lemma ScaleSixSums(a1: real, a2: real, a3: real, a4: real, a5: real, a6: real, w: real)
    ensures w * a1 + w * a2 + w * a3 + w * a4 + w * a5 + w * a6 == w * (a1 + a2 + a3 + a4 + a5 + a6)
  {
  }

  /** A non-zero factor cancels from both sides of an equation. */
  lemma MulCancel(x: real, y: real, t: real)
    requires t != 0.0
    requires x * t == y * t
    ensures x == y
  {
    assert (x - y) * t == 0.0;
  }

  /** Six parts that each scale back to a piece of a positive whole add up
      to one when the pieces add up to the whole. */
  lemma SumOfSixParts(s1: real, s2: real, s3: real, s4: real, s5: real, s6: real,
                      a1: real, a2: real, a3: real, a4: real, a5: real, a6: real, t: real)
    requires t > 0.0
    requires s1 * t == a1 && s2 * t == a2 && s3 * t == a3
    requires s4 * t == a4 && s5 * t == a5 && s6 * t == a6
    requires a1 + a2 + a3 + a4 + a5 + a6 == t
    ensures s1 + s2 + s3 + s4 + s5 + s6 == 1.0
  {
    assert (s1 + s2 + s3 + s4 + s5 + s6) * t == s1 * t + s2 * t + s3 * t + s4 * t + s5 * t + s6 * t;
    MulCancel(s1 + s2 + s3 + s4 + s5 + s6, 1.0, t);
  }

  /** Scaling six parts that add up to one by `x` gives parts adding up to `x`. */
  lemma ScaleSixParts(s1: real, s2: real, s3: real, s4: real, s5: real, s6: real, x: real)
    requires s1 + s2 + s3 + s4 + s5 + s6 == 1.0
    ensures x * s1 + x * s2 + x * s3 + x * s4 + x * s5 + x * s6 == x
  {
    assert x * s1 + x * s2 + x * s3 + x * s4 + x * s5 + x * s6 == x * (s1 + s2 + s3 + s4 + s5 + s6);
  }

  /** A part of a positive whole, divided by the whole, is at most one. */
  lemma FractionAtMostOne(a: real, t: real)
    requires 0.0 <= a <= t && t > 0.0
    ensures 0.0 <= a / t <= 1.0
  {
    var q := a / t;
    assert q * t == a;
  }

  /** `b` raised to the natural power `k`. */
  function Pow(b: real, k: nat): (r: real)
    ensures b >= 1.0 ==> r >= 1.0
    ensures b > 0.0 ==> r > 0.0
    decreases k
  {
    if k == 0 then 1.0
    else
      var prev := Pow(b, k - 1);
      assert b >= 1.0 ==> b * prev >= 1.0 by {
        if b >= 1.0 {
          assert prev >= 1.0;
          assert b * prev >= 1.0 * prev;
        }
      }
      b * prev
  }

  /** One more power multiplies by the base. */
  lemma PowSucc(b: real, k: nat)
    ensures Pow(b, k + 1) == Pow(b, k) * b
  {
  }

  /** One more year of growth on a factor grown `k` times. */
  lemma GrowOnce(w: real, g: real, k: nat)
    requires w == Pow(g, k)
    ensures w * g == Pow(g, k + 1)
  {
    PowSucc(g, k);
  }

  /** A product that is not positive, with a positive second factor, has a
      first factor that is not positive. */
  lemma NonPositiveFactor(a: real, b: real)
    requires b > 0.0
    requires a * b <= 0.0
    ensures a <= 0.0
  {
  }

  /** A power of a base of at least one grows with the exponent. */
  lemma {:induction false} PowMonotone(b: real, j: nat, k: nat)
    requires b >= 1.0
    requires j <= k
    ensures Pow(b, j) <= Pow(b, k)
    decreases k - j
  {
    if j < k {
      PowMonotone(b, j, k - 1);
      var prev := Pow(b, k - 1);
      assert prev >= 1.0;
      assert b * prev >= 1.0 * prev;
    }
  }
}

=== FILE: payroll.dfy ===
/** Payroll: the yearly cost of the staff, from the hourly rate of each
    role's salary layer, full-time hours, the wage factor compounded since
    year 1 and the employer's payroll tax. */
module Payroll {
  import opened Numbers
  import opened Scenario

  /** Hourly rate of a role in year 1, by its salary layer. */
  function HourlyRate(p: Params, r: Role): real {
    var layer := Layer(r);
    if layer == 1 then p.rateLayer1 as real
    else if layer == 2 then p.rateLayer2 as real
    else p.rateLayer3 as real
  }

  /** One plus the payroll tax rate. */
  function PayrollTaxFactor(p: Params): (f: real)
    ensures Valid(p) ==> 1.0 <= f <= 1.5
  {
    1.0 + p.payrollTaxPercent / 100.0
  }

  /** No salary layer is paid a negative hourly rate. */
  predicate RatesNonNegative(p: Params) {
    p.rateLayer1 >= 0 && p.rateLayer2 >= 0 && p.rateLayer3 >= 0
  }

  /** Yearly cost of one FTE of a role, payroll tax included, at the given
      wage factor. */
  function CostPerHead(p: Params, r: Role, wageFactor: real): (c: real)
    ensures Valid(p) && RatesNonNegative(p) && wageFactor >= 0.0 ==> c >= 0.0
  {
    var base := HourlyRate(p, r) * HoursPerMonth * MonthsPerYear;
    assert Valid(p) && RatesNonNegative(p) && wageFactor >= 0.0 ==>
             base * wageFactor * PayrollTaxFactor(p) >= 0.0 by {
      if Valid(p) && RatesNonNegative(p) && wageFactor >= 0.0 {
        MulNonNegative(base, wageFactor);
        MulNonNegative(base * wageFactor, PayrollTaxFactor(p));
      }
    }
    base * wageFactor * PayrollTaxFactor(p)
  }

  /** Cost of one role's FTE in a year. */
  function RoleCost(p: Params, s: Staff, r: Role, wageFactor: real): real {
    s.Of(r) * CostPerHead(p, r, wageFactor)
  }

  /** Personnel cost of a year: the role costs summed over all roles. With
      non-negative staff, rates and wage factor it is non-negative. */
  function PersonnelCost(p: Params, s: Staff, wageFactor: real): (c: real)
    ensures Valid(p) && RatesNonNegative(p) && s.NonNegative() && wageFactor >= 0.0 ==> c >= 0.0
  {
    assert Valid(p) && RatesNonNegative(p) && s.NonNegative() && wageFactor >= 0.0 ==>
             RoleCost(p, s, ManagingDirector, wageFactor) >= 0.0 && RoleCost(p, s, Executives, wageFactor) >= 0.0
             && RoleCost(p, s, FieldService, wageFactor) >= 0.0 && RoleCost(p, s, InternalSales, wageFactor) >= 0.0
             && RoleCost(p, s, Marketing, wageFactor) >= 0.0 && RoleCost(p, s, Accounting, wageFactor) >= 0.0 by {
      if Valid(p) && RatesNonNegative(p) && s.NonNegative() && wageFactor >= 0.0 {
        RoleCostNonNegative(p, s, ManagingDirector, wageFactor);
        RoleCostNonNegative(p, s, Executives, wageFactor);
        RoleCostNonNegative(p, s, FieldService, wageFactor);
        RoleCostNonNegative(p, s, InternalSales, wageFactor);
        RoleCostNonNegative(p, s, Marketing, wageFactor);
        RoleCostNonNegative(p, s, Accounting, wageFactor);
      }
    }
    RoleCost(p, s, ManagingDirector, wageFactor) + RoleCost(p, s, Executives, wageFactor)
    + RoleCost(p, s, FieldService, wageFactor) + RoleCost(p, s, InternalSales, wageFactor)
    + RoleCost(p, s, Marketing, wageFactor) + RoleCost(p, s, Accounting, wageFactor)
  }

  lemma RoleCostNonNegative(p: Params, s: Staff, r: Role, wageFactor: real)
    requires Valid(p) && RatesNonNegative(p) && s.NonNegative() && wageFactor >= 0.0
    ensures RoleCost(p, s, r, wageFactor) >= 0.0
  {
    RoleWithinTotal(s, r);
    MulNonNegative(s.Of(r), CostPerHead(p, r, wageFactor));
  }

  /** A role's cost at wage factor `w` is `w` times its cost at the year-1
      rates. */
  lemma RoleCostScales(p: Params, s: Staff, r: Role, w: real)
    ensures RoleCost(p, s, r, w) == w * RoleCost(p, s, r, 1.0)
  {
    var base := HourlyRate(p, r) * HoursPerMonth * MonthsPerYear;
    var tax := PayrollTaxFactor(p);
    ProductRegroup(s.Of(r), base, w, tax);
  }

  /** Personnel cost at wage factor `w` is `w` times the personnel cost of
      the same staff at the year-1 rates: the wage factor scales the whole
      payroll and nothing else. */
  lemma PersonnelCostScales(p: Params, s: Staff, w: real)
    ensures PersonnelCost(p, s, w) == w * PersonnelCost(p, s, 1.0)
  {
    RoleCostScales(p, s, ManagingDirector, w);
    RoleCostScales(p, s, Executives, w);
    RoleCostScales(p, s, FieldService, w);
    RoleCostScales(p, s, InternalSales, w);
    RoleCostScales(p, s, Marketing, w);
    RoleCostScales(p, s, Accounting, w);
    ScaleSixSums(RoleCost(p, s, ManagingDirector, 1.0), RoleCost(p, s, Executives, 1.0),
                 RoleCost(p, s, FieldService, 1.0), RoleCost(p, s, InternalSales, 1.0),
                 RoleCost(p, s, Marketing, 1.0), RoleCost(p, s, Accounting, 1.0), w);
  }

  /** More staff in every role and a higher wage factor never lower the
      personnel cost, when rates are not negative. */
  lemma PersonnelCostMonotone(p: Params, a: Staff, b: Staff, v: real, w: real)
    requires Valid(p) && RatesNonNegative(p)
    requires a.NonNegative()
    requires forall r: Role :: a.Of(r) <= b.Of(r)
    requires 0.0 <= v <= w
    ensures PersonnelCost(p, a, v) <= PersonnelCost(p, b, w)
  {
    RoleCostMonotone(p, a, b, ManagingDirector, v, w);
    RoleCostMonotone(p, a, b, Executives, v, w);
    RoleCostMonotone(p, a, b, FieldService, v, w);
    RoleCostMonotone(p, a, b, InternalSales, v, w);
    RoleCostMonotone(p, a, b, Marketing, v, w);
    RoleCostMonotone(p, a, b, Accounting, v, w);
  }

  lemma RoleCostMonotone(p: Params, a: Staff, b: Staff, r: Role, v: real, w: real)
    requires Valid(p) && RatesNonNegative(p)
    requires a.NonNegative()
    requires a.Of(r) <= b.Of(r)
    requires 0.0 <= v <= w
    ensures RoleCost(p, a, r, v) <= RoleCost(p, b, r, w)
  {
    RoleWithinTotal(a, r);
    var cv, cw := CostPerHead(p, r, v), CostPerHead(p, r, w);
    assert cv <= cw by {
      var base := HourlyRate(p, r) * HoursPerMonth * MonthsPerYear;
      var tax := PayrollTaxFactor(p);
      MulNonNegative(base, tax);
      Regroup(base, v, tax);
      Regroup(base, w, tax);
      MulMonotone(v, w, base * tax);
    }
    ProductMonotone(a.Of(r), b.Of(r), cv, cw);
  }
}

=== FILE: projection.dfy ===
/** The ten-year projection. Three quantities carry from one year to the
    next: the customers, the total FTE and the compounded wage factor. Each
    is a recurrence over the years here, and the year's row of the plan is
    determined by them; the script's loop, which carries all three in
    variables, computes the same rows. */
module Projection {
  import opened Numbers
  import opened Results
  import opened Scenario
  import opened Market
  import opened Headcount
  import opened Payroll
  import opened Costs

  /** One year of the plan. A row holds the year's drivers: its customers,
      its total FTE and the wage factor it pays at. Every other column of
      the year (net revenue, FTE by role, personnel cost, other opex, cost
      of goods sold, total costs, EBITDA, margin) is determined by these and
      the inputs, and is a member function here. */
  datatype Row = Row(year: nat, customers: real, fteTotal: real, wageFactor: real)
  {
    function NetRevenue(p: Params): real {
      Market.NetRevenue(p, customers)
    }

    /** FTE by role: the total split by the start roster's shares. */
    function Fte(p: Params): Staff {
      Split(p, fteTotal)
    }

    function Personnel(p: Params): real {
      PersonnelCost(p, Fte(p), wageFactor)
    }

    /** The other operating expenses, by driver. */
    function OpexItems(p: Params): Opex {
      OpexFor(p, year, customers, NetRevenue(p), fteTotal, Fte(p))
    }

    function OpexTotal(p: Params): real {
      OpexItems(p).Total()
    }

    function GoodsCost(p: Params): real {
      Cogs(p, NetRevenue(p))
    }

    function TotalCosts(p: Params): real {
      Personnel(p) + OpexTotal(p) + GoodsCost(p)
    }

    function Ebitda(p: Params): real {
      NetRevenue(p) - TotalCosts(p)
    }

    /** EBITDA margin in percent. */
    function MarginPercent(p: Params): real {
      Margin(Ebitda(p), NetRevenue(p))
    }
  }

  /** Customers of year `k`; for `k == 0` the count the script starts its
      loop with, which year 1 keeps. */
  function CustomersAt(p: Params, k: nat): real
    decreases k
  {
    if k == 0 then CustomersYear1 else Customers(p, k, CustomersAt(p, k - 1))
  }

  /** Total FTE of year `k`: what the year's revenue requires, never below
      the year before; for `k == 0` the start roster's total. */
  function EmployeesAt(p: Params, k: nat): (e: real)
    ensures k >= 1 ==> e >= EmployeesAt(p, k - 1)
    decreases k
  {
    if k == 0 then p.startFte.Total()
    else TotalFte(p, NetRevenue(p, CustomersAt(p, k)), EmployeesAt(p, k - 1))
  }

  /** The wage factor a year pays at, from the one of the year before: the
      same in year 1, grown by salary increase and inflation afterwards. */
  function NextWageFactor(p: Params, t: nat, w: real): real {
    if t > 1 then w * WageGrowth(p) else w
  }

  /** The wage factor of year `k`: one in year 1 (and before). */
  function WageFactorAt(p: Params, k: nat): real
    decreases k
  {
    if k == 0 then 1.0 else NextWageFactor(p, k, WageFactorAt(p, k - 1))
  }

  /** The row of year `t`. */
  function YearRow(p: Params, t: nat): (row: Row)
    ensures row.year == t
  {
    Row(t, CustomersAt(p, t), EmployeesAt(p, t), WageFactorAt(p, t))
  }

  /** The rows of the first `k` years, in order of the years. */
  function Rows(p: Params, k: nat): (rows: seq<Row>)
    ensures |rows| == k
    ensures forall i :: 0 <= i < k ==> rows[i].year == i + 1
    decreases k
  {
    if k == 0 then [] else Rows(p, k - 1) + [YearRow(p, k)]
  }

  /** The plan: one row per year, years 1 to 10 in order. */
  function Simulate(p: Params): (rows: seq<Row>)
    ensures |rows| == Years
    ensures forall i :: 0 <= i < |rows| ==> rows[i].year == i + 1
  {
    Rows(p, Years)
  }

  /** What a year hands on to the next in the script's loop: its
      customers, its total FTE and its wage factor. */
  datatype Carry = Carry(customers: real, employees: real, wageFactor: real)

  /** The state after the first `k` years. */
  function StateAt(p: Params, k: nat): Carry {
    Carry(CustomersAt(p, k), EmployeesAt(p, k), WageFactorAt(p, k))
  }

  /** One pass of the script's loop body for year `t >= 1`, from the state
      `c` the years before left. */
  function Step(p: Params, t: nat, c: Carry): (next: Carry)
    requires t >= 1
  {
    var n := Customers(p, t, c.customers);
    Carry(n, TotalFte(p, NetRevenue(p, n), c.employees), NextWageFactor(p, t, c.wageFactor))
  }

  /** The recurrences of customers, total FTE and wage factor are the
      script's loop body, year by year. */
  lemma StepAgrees(p: Params, t: nat)
    requires t >= 1
    ensures StateAt(p, t) == Step(p, t, StateAt(p, t - 1))
  {
    var c := StateAt(p, t - 1);
    var next := Step(p, t, c);
    assert CustomersAt(p, t) == next.customers;
    assert EmployeesAt(p, t) == next.employees;
    assert WageFactorAt(p, t) == next.wageFactor;
  }

  /** The projection as the script runs it: one loop over the years with
      last year's customers, total FTE and wage factor carried in three
      variables, appending the year's row. */
  method SimulateLoop(p: Params) returns (rows: seq<Row>)
    ensures rows == Simulate(p)
    ensures |rows| == Years
  {
    var nPrev := CustomersYear1;
    var employeesPrev := p.startFte.Total();
    var wageFactor := 1.0;
    rows := [];
    var t := 1;
    while t <= Years
      invariant 1 <= t <= Years + 1
      invariant rows == Rows(p, t - 1)
      invariant StateAt(p, t - 1) == Carry(nPrev, employeesPrev, wageFactor)
    {
      var next := Step(p, t, Carry(nPrev, employeesPrev, wageFactor));
      StepAgrees(p, t);
      rows := rows + [Row(t, next.customers, next.employees, next.wageFactor)];
      nPrev, employeesPrev, wageFactor := next.customers, next.employees, next.wageFactor;
      t := t + 1;
    }
  }

  /** One year as the script computes it, given the state `c` the years
      before left: from year 2 on the Bass step divides by the obtainable
      market, and fails when it is empty. */
  function YearAsWritten(p: Params, t: nat, c: Carry): (r: Result<Carry>)
    requires t >= 1
  {
    var customers :=
      if t == 1 then Ok(CustomersYear1)
      else BassNextAsWritten(t, c.customers, Som(p), Innovation(p), Imitation(p), Churn(p));
    match customers
    case Err(e) => Err(e)
    case Ok(n) =>
      Ok(Carry(n, TotalFte(p, NetRevenue(p, n), c.employees), NextWageFactor(p, t, c.wageFactor)))
  }

  /** The first `k` years as the script computes them, stopping at the first
      failing year. */
  function RowsAsWritten(p: Params, k: nat): (r: Result<(seq<Row>, Carry)>)
    decreases k
  {
    if k == 0 then Ok(([], StateAt(p, 0)))
    else
      match RowsAsWritten(p, k - 1)
      case Err(e) => Err(e)
      case Ok(prev) =>
        match YearAsWritten(p, k, prev.1)
        case Err(e) => Err(e)
        case Ok(c) => Ok((prev.0 + [Row(k, c.customers, c.employees, c.wageFactor)], c))
  }

  /** The first `k` years as written agree with the guarded projection when
      the obtainable market is not empty or fewer than two years are
      computed, and fail in year 2 otherwise. */
  lemma {:induction false} RowsAsWrittenAgree(p: Params, k: nat)
    ensures Som(p) != 0.0 || k < 2 ==> RowsAsWritten(p, k) == Ok((Rows(p, k), StateAt(p, k)))
    ensures Som(p) == 0.0 && k >= 2 ==> RowsAsWritten(p, k) == Err(DivisionByZero(2))
    decreases k
  {
    if k > 0 {
      RowsAsWrittenAgree(p, k - 1);
    }
  }

  /** The plan as the script computes it: the ten rows of `Simulate` when
      the obtainable market is not empty, a division by zero in year 2 when
      it is (a target share of 0%, which the input allows). */
  function SimulateAsWritten(p: Params): (r: Result<seq<Row>>)
    ensures r.Err? <==> Som(p) == 0.0
    ensures r.Err? ==> r.error == DivisionByZero(2)
    ensures r.Ok? ==> r.value == Simulate(p)
  {
    RowsAsWrittenAgree(p, Years);
    match RowsAsWritten(p, Years)
    case Err(e) => Err(e)
    case Ok(done) => Ok(done.0)
  }
}

=== FILE: projection_facts.dfy ===
/** Properties of the ten-year projection that relate its years to each
    other: the recurrences each row obeys in terms of the row before, the
    invariants the yearly transition keeps, and the columns each row
    derives from its drivers. The arithmetic is proved on the recurrences
    and on rows in general; the plan-level lemmas connect the plan's rows
    to those facts. */
module ProjectionFacts {
  import opened Numbers
  import opened Results
  import opened Scenario
  import opened Market
  import opened Headcount
  import opened Payroll
  import opened Costs
  import opened Projection

  // ---------------------------------------------------------------------
  // The recurrences

  /** The wage factor of year `k >= 1` has grown `k - 1` times: the
      compounded salary increase and inflation since year 1. */
  lemma {:induction false} WageFactorAtClosedForm(p: Params, k: nat)
    requires k >= 1
    ensures WageFactorAt(p, k) == Pow(WageGrowth(p), k - 1)
  {
    var j := 1;
    assert WageFactorAt(p, 1) == 1.0;
    while j < k
      invariant 1 <= j <= k
      invariant WageFactorAt(p, j) == Pow(WageGrowth(p), j - 1)
    {
      GrowOnce(WageFactorAt(p, j), WageGrowth(p), j - 1);
      j := j + 1;
    }
  }

  /** Customer counts are never negative within the input ranges. */
  lemma {:induction false} CustomersAtNonNegative(p: Params, k: nat)
    requires Valid(p)
    ensures CustomersAt(p, k) >= 0.0
  {
    var j := 0;
    while j < k
      invariant j <= k
      invariant CustomersAt(p, j) >= 0.0
    {
      CustomersStepNonNegative(p, j + 1);
      j := j + 1;
    }
  }

  /** One year of customers from a count that is not negative. */
  lemma CustomersStepNonNegative(p: Params, k: nat)
    requires Valid(p)
    requires k >= 1
    requires CustomersAt(p, k - 1) >= 0.0
    ensures CustomersAt(p, k) >= 0.0
  {
  }

  /** The total FTE never falls below the start roster's total. */
  lemma {:induction false} KeepsStartStaff(p: Params, k: nat)
    ensures EmployeesAt(p, k) >= p.startFte.Total()
  {
    var j := 0;
    while j < k
      invariant j <= k
      invariant EmployeesAt(p, j) >= p.startFte.Total()
    {
      EmployeesStepAtLeast(p, j + 1, p.startFte.Total());
      j := j + 1;
    }
  }

  /** A bound the total FTE of a year meets, the next year meets too. */
  lemma EmployeesStepAtLeast(p: Params, k: nat, bound: real)
    requires k >= 1
    requires EmployeesAt(p, k - 1) >= bound
    ensures EmployeesAt(p, k) >= bound
  {
  }

  /** With an empty start roster the required FTE is zero and the total
      stays at zero in every year. */
  lemma {:induction false} EmptyRosterStaysEmpty(p: Params, k: nat)
    requires p.startFte.Total() == 0.0
    ensures EmployeesAt(p, k) == 0.0
  {
    var j := 0;
    while j < k
      invariant j <= k
      invariant EmployeesAt(p, j) == 0.0
    {
      EmptyRosterStep(p, j + 1);
      j := j + 1;
    }
  }

  /** With an empty start roster, a year with no FTE is followed by one. */
  lemma EmptyRosterStep(p: Params, k: nat)
    requires p.startFte.Total() == 0.0
    requires k >= 1
    requires EmployeesAt(p, k - 1) == 0.0
    ensures EmployeesAt(p, k) == 0.0
  {
  }

  /** Year 1 keeps the start roster: the year-1 revenue requires exactly the
      start total (or nothing, when there is no positive target), and the
      ratchet keeps the start total. */
  lemma FirstYearStaff(p: Params)
    requires Valid(p)
    ensures CustomersAt(p, 1) == CustomersYear1
    ensures EmployeesAt(p, 1) == p.startFte.Total()
  {
    var total := p.startFte.Total();
    assert CustomersAt(p, 1) == CustomersYear1;
    assert RequiredFte(p, NetRevenue(p, CustomersYear1)) <= total by {
      if total > 0.0 && RevenueYear1(p) <= 0.0 {
        NonPositiveFactor(TargetRevenuePerFte(p), total);
      }
    }
  }

  // ---------------------------------------------------------------------
  // Rows of the plan

  /** Row `i` of the first `k` years is the row of year `i + 1`. */
  lemma RowsAt(p: Params, k: nat, i: nat)
    requires i < k
    ensures Rows(p, k)[i] == YearRow(p, i + 1)
  {
  }

  /** The row of year `t` in the plan holds the customers, total FTE and
      wage factor of year `t`. */
  lemma PlanRow(p: Params, t: nat)
    requires 1 <= t <= Years
    ensures Simulate(p)[t - 1] == Row(t, CustomersAt(p, t), EmployeesAt(p, t), WageFactorAt(p, t))
  {
    RowsAt(p, Years, t - 1);
  }

  /** Year 1: ten customers bringing the year-1 net revenue, the start
      roster's total FTE, the year-1 wage rates and the website lump sum. */
  lemma FirstYear(p: Params)
    requires Valid(p)
    ensures Simulate(p)[0].customers == CustomersYear1
    ensures Simulate(p)[0].NetRevenue(p) == RevenueYear1(p)
    ensures Simulate(p)[0].fteTotal == p.startFte.Total()
    ensures Simulate(p)[0].wageFactor == 1.0
    ensures Simulate(p)[0].OpexItems(p).misc == 13000.0
  {
    PlanRow(p, 1);
    FirstYearStaff(p);
  }

  /** Year 1 takes the start roster as it is, whatever the other inputs:
      its total is the roster's total, which splits back into the roster. */
  lemma FirstYearRoster(p: Params)
    requires Valid(p) && p.startFte.Total() > 0.0
    ensures Simulate(p)[0].Fte(p) == p.startFte
  {
    FirstYear(p);
    SplitAtStartTotal(p);
  }

  /** From year 2 on, the customers of a year are one Bass step from the
      customers of the year before. */
  lemma CustomerRecurrence(p: Params, t: nat)
    requires 2 <= t <= Years
    ensures Simulate(p)[t - 1].customers
            == BassNext(Simulate(p)[t - 2].customers, Som(p), Innovation(p), Imitation(p), Churn(p))
  {
    PlanRow(p, t);
    PlanRow(p, t - 1);
  }

  /** Customer counts are never negative within the input ranges. */
  lemma CustomersNonNegative(p: Params, t: nat)
    requires Valid(p)
    requires 1 <= t <= Years
    ensures Simulate(p)[t - 1].customers >= 0.0
  {
    PlanRow(p, t);
    CustomersAtNonNegative(p, t);
  }

  /** Once the customers of a year reach the obtainable market, the next
      year has no more customers. */
  lemma NoGrowthAboveMarket(p: Params, t: nat)
    requires Valid(p)
    requires 2 <= t <= Years
    requires Simulate(p)[t - 2].customers >= Som(p)
    ensures Simulate(p)[t - 1].customers <= Simulate(p)[t - 2].customers
  {
    CustomerRecurrence(p, t);
  }

  /** The total FTE of a year covers what its revenue requires and is never
      below the year before; it is the year before's total unless the
      revenue requires more. */
  lemma HeadcountRatchet(p: Params, t: nat)
    requires 2 <= t <= Years
    ensures Simulate(p)[t - 2].fteTotal <= Simulate(p)[t - 1].fteTotal
    ensures Simulate(p)[t - 1].fteTotal >= RequiredFte(p, Simulate(p)[t - 1].NetRevenue(p))
    ensures Simulate(p)[t - 1].fteTotal == Simulate(p)[t - 2].fteTotal
            || Simulate(p)[t - 1].fteTotal == RequiredFte(p, Simulate(p)[t - 1].NetRevenue(p))
  {
    PlanRow(p, t);
    PlanRow(p, t - 1);
  }

  /** Within the input ranges no role loses FTE from one year to the next. */
  lemma RoleRatchet(p: Params, t: nat, r: Role)
    requires Valid(p)
    requires 2 <= t <= Years
    ensures Simulate(p)[t - 2].Fte(p).Of(r) <= Simulate(p)[t - 1].Fte(p).Of(r)
  {
    HeadcountRatchet(p, t);
    SplitMonotone(p, Simulate(p)[t - 2].fteTotal, Simulate(p)[t - 1].fteTotal, r);
  }

  /** The role FTEs of a year add up to its total FTE (to zero when the
      start roster is empty). */
  lemma RolesAddUp(p: Params, t: nat)
    requires 1 <= t <= Years
    ensures p.startFte.Total() > 0.0 ==> Simulate(p)[t - 1].Fte(p).Total() == Simulate(p)[t - 1].fteTotal
    ensures p.startFte.Total() <= 0.0 ==> Simulate(p)[t - 1].Fte(p).Total() == 0.0
  {
  }

  /** A role the start roster leaves empty has no FTE in any year. */
  lemma IdleRoleInEveryYear(p: Params, t: nat, r: Role)
    requires 1 <= t <= Years
    requires p.startFte.Of(r) == 0.0
    ensures Simulate(p)[t - 1].Fte(p).Of(r) == 0.0
  {
    IdleRoleStaysIdle(p, Simulate(p)[t - 1].fteTotal, r);
  }

  /** With the script's start roster there is never a managing director,
      whatever the other inputs. */
  lemma NoManagingDirector(p: Params, t: nat)
    requires p.startFte == StartRoster
    requires 1 <= t <= Years
    ensures Simulate(p)[t - 1].Fte(p).md == 0.0
  {
    IdleRoleInEveryYear(p, t, ManagingDirector);
  }

  /** An empty start roster: no FTE and no personnel cost in any year. */
  lemma EmptyRosterFallback(p: Params, t: nat)
    requires 1 <= t <= Years
    requires p.startFte.Total() == 0.0
    ensures Simulate(p)[t - 1].fteTotal == 0.0
    ensures Simulate(p)[t - 1].Personnel(p) == 0.0
  {
    PlanRow(p, t);
    EmptyRosterStaysEmpty(p, t);
    NoStaffNoPayroll(p, Simulate(p)[t - 1].wageFactor);
  }

  /** Splitting a total of zero leaves nobody to pay. */
  lemma NoStaffNoPayroll(p: Params, w: real)
    ensures PersonnelCost(p, Split(p, 0.0), w) == 0.0
  {
    SplitOf(p, 0.0, ManagingDirector);
    SplitOf(p, 0.0, Executives);
    SplitOf(p, 0.0, FieldService);
    SplitOf(p, 0.0, InternalSales);
    SplitOf(p, 0.0, Marketing);
    SplitOf(p, 0.0, Accounting);
  }

  /** The wage factor of year `t` is one in year 1 and has grown by salary
      increase and inflation once for every year since. */
  lemma WageFactorClosedForm(p: Params, t: nat)
    requires 1 <= t <= Years
    ensures Simulate(p)[t - 1].wageFactor == Pow(WageGrowth(p), t - 1)
  {
    PlanRow(p, t);
    WageFactorAtClosedForm(p, t);
  }

  /** Personnel cost of year `t` is the year's staff paid at the year-1
      rates compounded `t - 1` times by salary increase and inflation; by
      `PersonnelCostScales` that is the compounded factor times the year-1
      payroll of the same staff. */
  lemma PersonnelAtCompoundedRates(p: Params, t: nat)
    requires 1 <= t <= Years
    ensures Simulate(p)[t - 1].Personnel(p)
            == PersonnelCost(p, Simulate(p)[t - 1].Fte(p), Pow(WageGrowth(p), t - 1))
  {
    WageFactorClosedForm(p, t);
  }

  /** Within the input ranges and with no negative hourly rate, personnel
      cost never falls from one year to the next. */
  lemma PersonnelNeverFalls(p: Params, t: nat)
    requires Valid(p) && RatesNonNegative(p)
    requires 2 <= t <= Years
    ensures Simulate(p)[t - 2].Personnel(p) <= Simulate(p)[t - 1].Personnel(p)
  {
    var a, b := Simulate(p)[t - 2], Simulate(p)[t - 1];
    HeadcountRatchet(p, t);
    PlanRow(p, t - 1);
    KeepsStartStaff(p, t - 1);
    assert a.fteTotal >= 0.0;
    forall r: Role ensures a.Fte(p).Of(r) <= b.Fte(p).Of(r) {
      RoleRatchet(p, t, r);
    }
    WageFactorGrows(p, t);
    PersonnelCostMonotone(p, a.Fte(p), b.Fte(p), a.wageFactor, b.wageFactor);
  }

  /** Within the input ranges the wage factor is at least one and never
      falls from one year to the next. */
  lemma WageFactorGrows(p: Params, t: nat)
    requires Valid(p)
    requires 2 <= t <= Years
    ensures 1.0 <= Simulate(p)[t - 2].wageFactor <= Simulate(p)[t - 1].wageFactor
  {
    WageFactorClosedForm(p, t - 1);
    WageFactorClosedForm(p, t);
    PowMonotone(WageGrowth(p), t - 2, t - 1);
  }

  /** The lump sum of year `t`: the website build in year 1, its
      maintenance in every later year. */
  lemma MiscByYear(p: Params, t: nat)
    requires 1 <= t <= Years
    ensures t == 1 ==> Simulate(p)[t - 1].OpexItems(p).misc == 13000.0
    ensures t > 1 ==> Simulate(p)[t - 1].OpexItems(p).misc == 3000.0
  {
  }

  // ---------------------------------------------------------------------
  // The script's default inputs

  /** The first year of the script's default inputs: 10 customers at 3000
      euros bring 30000 euros, carried by the start roster's two FTE. */
  lemma DefaultFirstYearStaff(p: Params)
    requires p == DefaultParams
    ensures Simulate(p)[0].customers == 10.0
    ensures Simulate(p)[0].NetRevenue(p) == 30000.0
    ensures Simulate(p)[0].fteTotal == 2.0
    ensures Simulate(p)[0].wageFactor == 1.0
    ensures Simulate(p)[0].Fte(p) == StartRoster
  {
    assert Valid(p);
    assert RevenueYear1(p) == 30000.0;
    assert p.startFte.Total() == 2.0;
    FirstYear(p);
    FirstYearRoster(p);
  }

  /** The first-year personnel cost of the script's default inputs: the
      two FTE cost 216000 euros with payroll tax. */
  lemma DefaultFirstYearPersonnel(p: Params)
    requires p == DefaultParams
    ensures Simulate(p)[0].Personnel(p) == 216000.0
  {
    DefaultFirstYearStaff(p);
    DefaultPayroll(p);
  }

  /** The first-year other opex of the script's default inputs: 73010
      euros, the website build included. */
  lemma DefaultFirstYearOpex(p: Params)
    requires p == DefaultParams
    ensures Simulate(p)[0].OpexTotal(p) == 73010.0
  {
    DefaultFirstYearStaff(p);
    DefaultOpex(p);
  }

  /** The first-year cost of goods sold of the script's default inputs:
      10% of 30000 euros. */
  lemma DefaultFirstYearGoods(p: Params)
    requires p == DefaultParams
    ensures Simulate(p)[0].GoodsCost(p) == 3000.0
  {
    DefaultFirstYearStaff(p);
    DefaultGoods(p);
  }

  /** The default inputs with the target share slider at its lowest
      setting, 0%: the script fails with a division by zero in year 2,
      where the guarded projection keeps the 9 of the first 10 customers
      that 10% churn leaves. */
  lemma EmptyMarketFails(p: Params)
    requires p == DefaultParams.(capPercent := 0.0)
    ensures Valid(p)
    ensures SimulateAsWritten(p) == Err(DivisionByZero(2))
    ensures Simulate(p)[1].customers == 9.0
  {
    PlanRow(p, 2);
    assert CustomersAt(p, 1) == 10.0;
  }

  /** The first-year EBITDA margin of the script's default inputs: -262010
      euros on 30000 euros of net revenue, about -873%. */
  lemma DefaultFirstYearMargin(p: Params)
    requires p == DefaultParams
    ensures Simulate(p)[0].MarginPercent(p) * 30000.0 == -26201000.0
  {
    DefaultFirstYearStaff(p);
    DefaultFirstYearResult(p);
  }

  /** The second year of the script's default inputs: of the 897 obtainable
      customers, 887 are still potential adopters; 9 of the 10 first
      customers stay, and 2.5% innovation plus 38% imitation at a 10/897
      share win the rest. Wages grow by 1.5% salary increase compounded
      with 2% inflation. */
  lemma DefaultSecondYear(p: Params)
    requires p == DefaultParams
    ensures Simulate(p)[1].customers == 9.0 + (0.025 + 0.38 * (10.0 / 897.0)) * 887.0
    ensures Simulate(p)[1].wageFactor == 1.0353
  {
    PlanRow(p, 2);
    assert Som(p) == 897.0;
    assert CustomersAt(p, 1) == 10.0;
    assert WageFactorAt(p, 1) == 1.0;
  }

  /** The default inputs with a 10% rebate: consulting and cost of goods
      sold are shares of the net revenue of 27000 euros, not of the gross
      30000. */
  lemma DiscountedFirstYear(p: Params)
    requires p == DefaultParams.(discountPercent := 10.0)
    ensures Simulate(p)[0].GoodsCost(p) == 2700.0
    ensures Simulate(p)[0].OpexItems(p).consulting == 1350.0
  {
    PlanRow(p, 1);
    assert CustomersAt(p, 1) == 10.0;
  }

  /** The first-year result of the script's default inputs: an EBITDA of
      -262010 euros on 30000 euros of net revenue. */
  lemma DefaultFirstYearResult(p: Params)
    requires p == DefaultParams
    ensures Simulate(p)[0].Ebitda(p) == -262010.0
  {
    DefaultFirstYearStaff(p);
    DefaultFirstYearPersonnel(p);
    DefaultFirstYearOpex(p);
    DefaultFirstYearGoods(p);
  }

  /** The year-1 payroll of the default start roster. */
  lemma DefaultPayroll(p: Params)
    requires p == DefaultParams
    ensures PersonnelCost(p, StartRoster, 1.0) == 216000.0
  {
  }

  /** The year-1 other opex of the default inputs. */
  lemma DefaultOpex(p: Params)
    requires p == DefaultParams
    ensures OpexFor(p, 1, 10.0, 30000.0, 2.0, StartRoster).Total() == 73010.0
  {
  }

  /** The year-1 cost of goods sold of the default inputs. */
  lemma DefaultGoods(p: Params)
    requires p == DefaultParams
    ensures Cogs(p, 30000.0) == 3000.0
  {
  }
}

=== FILE: results.dfy ===
/** The outcome of a calculation that can fail the way the planning script
    fails: by raising on a division by zero. */
module Results {

  /** Why a calculation stopped: a division by zero in the given year. */
  datatype CalcError = DivisionByZero(year: nat)

  datatype Result<+T> = Ok(value: T) | Err(error: CalcError)
}

=== FILE: scenario.dfy ===
/** Scenario parameters of the ten-year projection: the planning inputs as one
    immutable record, the six roles of the start roster with their salary
    layers, and the quantities the script derives from the inputs once,
    before its yearly loop. */
module Scenario {

  /** Length of the projection horizon in years. */
  const Years: nat := 10
  /** Customers in the first year, whatever the market inputs. */
  const CustomersYear1: real := 10.0
  /** Paid hours per month and months per year of one full-time employee. */
  const HoursPerMonth: real := 160.0
  const MonthsPerYear: real := 12.0

  /** The roles of the start roster, in the script's order. */
  datatype Role = ManagingDirector | Executives | FieldService | InternalSales | Marketing | Accounting

  /** Salary layer of a role: 1 management, 2 executives, 3 staff. */
  function Layer(r: Role): (l: int)
    ensures 1 <= l <= 3
    ensures l == 1 <==> r == ManagingDirector
    ensures l == 2 <==> r == Executives
  {
    match r
    case ManagingDirector => 1
    case Executives => 2
    case _ => 3
  }

  /** A full-time-equivalent count for each role. */
  datatype Staff = Staff(md: real, exec: real, field: real, sales: real, marketing: real, accounting: real)
  {
    function Of(r: Role): real {
      match r
      case ManagingDirector => md
      case Executives => exec
      case FieldService => field
      case InternalSales => sales
      case Marketing => marketing
      case Accounting => accounting
    }

    function Total(): real {
      md + exec + field + sales + marketing + accounting
    }

    predicate NonNegative() {
      md >= 0.0 && exec >= 0.0 && field >= 0.0 && sales >= 0.0 && marketing >= 0.0 && accounting >= 0.0
    }
  }

  /** In a roster without negative entries, no role exceeds the total. */
  lemma RoleWithinTotal(s: Staff, r: Role)
    requires s.NonNegative()
    ensures 0.0 <= s.Of(r) <= s.Total()
  {
  }

  /** The start roster of year 1: no managing director, one executive and
      fractional staff positions. */
  const StartRoster: Staff := Staff(0.0, 1.0, 0.25, 0.5, 0.125, 0.125)

  /** The planning inputs. Percentages are kept as entered (0..100); the
      integer inputs are whole euros (or customers, for the market size). */
  datatype Params = Params(
    sam: int,                    // serviceable addressable market, customers
    capPercent: real,            // target market share
    pPercent: real,              // Bass innovation coefficient
    qPercent: real,              // Bass imitation coefficient
    churnPercent: real,
    arpu: int,                   // revenue per customer and year
    cogsPercent: real,           // cost of goods sold, share of net revenue
    discountPercent: real,       // rebates and cash discounts
    wageIncreasePercent: real,   // yearly salary increase
    inflationPercent: real,
    payrollTaxPercent: real,     // employer's social charges
    rateLayer1: int,             // hourly rates by salary layer, year 1
    rateLayer2: int,
    rateLayer3: int,
    startFte: Staff,             // start roster
    marketingPerCustomer: int,
    officePerFte: int,
    techPerFte: int,
    consultingPercent: real,     // legal and tax advice, share of net revenue
    carCostPerFte: int)          // per executive and field service FTE

  /** The ranges the input widgets allow. Inputs without a bound in the
      script (ARPU, rates, per-unit costs) are unconstrained; the start
      roster must not be negative. */
  predicate Valid(p: Params) {
    && p.sam >= 39000
    && 0.0 <= p.capPercent <= 10.0
    && 0.0 <= p.pPercent <= 10.0
    && 0.0 <= p.qPercent <= 100.0
    && 0.0 <= p.churnPercent <= 30.0
    && 0.0 <= p.cogsPercent <= 80.0
    && 0.0 <= p.discountPercent <= 20.0
    && 0.0 <= p.wageIncreasePercent <= 10.0
    && 0.0 <= p.inflationPercent <= 10.0
    && 0.0 <= p.payrollTaxPercent <= 50.0
    && 0.0 <= p.consultingPercent <= 20.0
    && p.startFte.NonNegative()
  }

  /** The inputs' initial values. */
  const DefaultParams: Params := Params(
    39000, 2.3, 2.5, 38.0, 10.0,
    3000, 10.0, 0.0,
    1.5, 2.0, 25.0,
    80, 50, 40,
    StartRoster,
    3590, 4044, 1011, 5.0, 10000)

  /** Serviceable obtainable market: SAM times the target share. */
  function Som(p: Params): (m: real)
    ensures Valid(p) ==> m >= 0.0
    ensures Valid(p) ==> (m == 0.0 <==> p.capPercent == 0.0)
  {
    p.sam as real * (p.capPercent / 100.0)
  }

  function Innovation(p: Params): real { p.pPercent / 100.0 }
  function Imitation(p: Params): real { p.qPercent / 100.0 }
  function Churn(p: Params): real { p.churnPercent / 100.0 }

  /** The share of gross revenue kept after rebates. */
  function DiscountFactor(p: Params): (f: real)
    ensures Valid(p) ==> 0.8 <= f <= 1.0
  {
    1.0 - p.discountPercent / 100.0
  }

  /** Net revenue of the first year. */
  function RevenueYear1(p: Params): real {
    CustomersYear1 * p.arpu as real * DiscountFactor(p)
  }

  /** Net revenue one FTE is expected to carry, fixed from year 1; zero when
      the start roster is empty. */
  function TargetRevenuePerFte(p: Params): (r: real)
    ensures p.startFte.Total() > 0.0 ==> r * p.startFte.Total() == RevenueYear1(p)
    ensures p.startFte.Total() <= 0.0 ==> r == 0.0
  {
    var total := p.startFte.Total();
    if total > 0.0 then RevenueYear1(p) / total else 0.0
  }

  /** The yearly growth of wages: salary increase compounded with inflation. */
  function WageGrowth(p: Params): (g: real)
    ensures Valid(p) ==> g >= 1.0
  {
    var inc := 1.0 + p.wageIncreasePercent / 100.0;
    var infl := 1.0 + p.inflationPercent / 100.0;
    assert Valid(p) ==> inc * infl >= 1.0 by {
      if Valid(p) {
        assert inc >= 1.0 && infl >= 1.0;
        assert inc * infl >= 1.0 * infl;
      }
    }
    inc * infl
  }
}
